=== FILE: README.md ===
# Time-indexed selection core of the paratransit simulation dashboard

The dashboard animates a simulated day of a disabled-accessible call-taxi service. Every
frame it advances a clock in minutes since midnight. From that clock it picks the vehicle
and passenger markers that are live at that moment. It also looks up the simulation's
result snapshot for the current minute, which feeds the trip view's header and the report
panel's pie chart and waiting-time histogram. This project models those pure computations
in Dafny and proves their contracts:

- `Timeline`: the inclusive-interval marker filter `currData`.
- `Snapshots`: the two `currResult` lookups. The trip view yields `undefined` on a miss; the
  report falls back to `{}`.
- `Clock`: the updater given to `setTime` on each animation frame. It resets rather than
  clamps, and it tests the value before the step.
- `Label`: the `TIME : HH : MM` heading, with JavaScript's `Math.round`, `parseInt`, `%`
  and `String`.
- `Report`: the pie data, the histogram labels and values, and the report render.
- `TripView`: the trail colours, the header figures and one render of the trip view.

Modelling choices:

- Time is an exact `real`. The per-frame step is exactly `0.01 * 5 = 0.05`.
- `Math.floor` is `Floor`. `Math.round(x)` is `(x + 0.5).Floor`, so ties go toward
  +infinity.
- `parseInt(n / 60)` truncates toward zero. JavaScript `%` keeps the sign of the dividend.
- A snapshot's `time` is an integer.
- The waiting-time dict is a sequence of buckets, listed in the order that
  `Object.values` enumerates them.
- The bitwise `&` in the filter's test behaves like `&&` on booleans, so it is modelled
  as `&&`.
- Throwing is modelled as `Failure(TypeError(..))`. This covers a property read on
  `undefined` and `Object.values(undefined)`.
- The clock bounds 360 and 1439, and the start value 360, come from src/App.js:19-23.

The clock's wrap test is on the value before the step. So 1439 advances to 1439.05, and
only the next frame resets it to 360 (src/components/Trip.js:87-90).

A minute without a record crashes both views. The trip header reads fields of
`undefined` (src/components/Trip.js:160); `TripView.Header` models this as an error case.
The report calls `Object.values(undefined)` (src/components/Report.js:52), despite its `{}`
fallback; see Findings.

## Model

| member | source | states |
|---|---|---|
| `Timeline.Select` | src/components/Trip.js:50-59 | the result is no longer than the input; every selected location belongs to a record with `start <= time <= end`; every such record's location is selected |
| `Timeline.ActiveIndices` | src/components/Trip.js:52-56 | independent reference: strictly increasing positions, each of an active record, covering every active record |
| `Timeline.SelectInInputOrder` | src/components/Trip.js:50-59 | the filter equals the comprehension over the active positions in input order: the k-th output is the location of the k-th active record |
| `Timeline.SelectAppend` | src/components/Trip.js:52-57 | filtering a concatenation is the concatenation of the filtered parts |
| `Timeline.CurrData` | src/components/Trip.js:50-59 | the forEach/push loop computes exactly the in-order filter |
| `Timeline.BoundsAreInclusive` | src/components/Trip.js:54 | a record with `start == time` or `end == time` is selected; one with `time < start` or `time > end` is not |
| `Timeline.NoMatchSelectsNothing` | src/components/Trip.js:51-58 | empty input or no active record gives the empty sequence |
| `Timeline.MarkerScenario` | src/components/Trip.js:50-59 | a marker live over [360, 400] is shown at 390 and not at 450 |
| `Snapshots.FirstMatch` | src/components/Trip.js:62 | `find` returns the lowest position whose `time` equals the minute, or nothing when no position does |
| `Snapshots.CurrResult` | src/components/Trip.js:61-64 | the trip lookup is undefined exactly when no record has `time == floor(t)`, and otherwise is the first such record |
| `Snapshots.ReportResult` | src/components/Report.js:10-13 | the report lookup is the empty object exactly when no record matches `floor(t)`, and otherwise the first match; it is never undefined |
| `Snapshots.ReportAgreesWithTrip` | src/components/Report.js:10-13 | the two lookups find the same record whenever one exists |
| `Snapshots.LookupFindsTheRecord` | src/components/Trip.js:61-64 | with at most one record per minute, the lookup returns the record of that minute |
| `Snapshots.LookupConstantWithinMinute` | src/components/Trip.js:62 | two times with the same floor look up the same record |
| `Snapshots.SnapshotScenario` | src/components/Trip.js:61-64 | records for 360 and 361 looked up at 360.9 give the 360 record; 359.99 and 362 find nothing |
| `Clock.Tick` | src/components/Trip.js:86-92 | a value above `maxTime` becomes exactly `minTime` (reset, not clamp); any other value strictly increases by 0.05 |
| `Clock.TickStaysInRange` | src/components/Trip.js:87-90 | `[minTime, maxTime + 0.05]` is preserved by one tick |
| `Clock.TicksStayInRange` | src/components/Trip.js:86-92 | the same range is preserved by any number of ticks |
| `Clock.TicksCompose` | src/components/Trip.js:86-92 | `a` ticks after `b` ticks equal `a + b` ticks |
| `Clock.TicksFromMin` | src/components/Trip.js:86-92 | until it first passes `maxTime`, the clock started at `minTime` reads `minTime + 0.05 k` after `k` ticks |
| `Clock.ClockIsPeriodic` | src/components/Trip.js:86-92 | if tick `k` is the first past `maxTime`, tick `k + 1` is `minTime` and the clock repeats with period `k + 1` |
| `Clock.AppClockCycle` | src/components/Trip.js:72-92 | with the app's bounds 360 and 1439 the clock reaches 1439 exactly, then 1439.05, then 360, and has period 21582 frames |
| `Clock.WrapScenario` | src/components/Trip.js:87-90 | 1439 is advanced to 1439.05, not reset; 1439.05 is reset to 360 |
| `Label.JsRound` | src/components/Trip.js:157 | `Math.round` gives the integer within half a unit, ties upward |
| `Label.TruncDiv` | src/components/Trip.js:157 | `parseInt(n / d)` is floor division for non-negative `n` and truncates toward zero for negative `n` |
| `Label.TruncRem` | src/components/Trip.js:157 | JavaScript `%` completes the truncating division; it agrees with `mod` for non-negative `n` and is non-positive for negative `n` |
| `Label.Hour` | src/components/Trip.js:157 | `parseInt(round(t) / 60) % 24` lies strictly between -24 and 24, and equals `floor(round(t) / 60) mod 24` when `round(t) >= 0` |
| `Label.MinuteOfHour` | src/components/Trip.js:157 | `round(t) % 60` lies strictly between -60 and 60, and equals `round(t) mod 60` when `round(t) >= 0` |
| `Label.DecimalString` | src/components/Trip.js:157 | `String(n)` reads back as `n` for `n >= 0` and begins with '0' only for `n == 0`; for negative `n` it is '-' followed by digits with no leading zero that read back as `-n` |
| `Label.Digits` | src/components/Trip.js:157 | the digits of a natural number have no leading zero (only 0 begins with '0') and are a single character exactly when the number is below 10 |
| `Label.ClockLabel` | src/components/Trip.js:157 | the heading always starts with `TIME : ` and has at least 14 characters; when `round(t) >= 0` it is exactly 14, with ` : ` between two fields that read back as the hour and the minute |
| `Label.DigitsRoundTrip` | src/components/Trip.js:157 | reading back the decimal digits of `String(n)` gives `n` |
| `Label.Pad2` | src/components/Trip.js:157 | a string of length two is kept; any other gets one leading '0' |
| `Label.PaddedField` | src/components/Trip.js:157 | a value in [0, 100) renders as exactly two digits, has a leading '0' iff it is below 10, and reads back as itself |
| `Label.HourAndMinute` | src/components/Trip.js:157 | for `t >= 0` the hour is `floor(round(t) / 60) mod 24` and the minute is `round(t) mod 60`, each in range |
| `Label.ClockLabelRoundTrip` | src/components/Trip.js:157 | for `t >= 0` the heading is `TIME : hh : mm` (14 characters) and reads back as `round(t) mod 1440` |
| `Label.NegativeFieldsRenderUnpadded` | src/components/Trip.js:157 | negative fields are not guarded: -1 renders as "-1" and -10 as "0-10" |
| `Report.PieData` | src/components/Report.js:24-31 | the pie data is exactly [dispatched, occupied, idle] of the snapshot, in that order; on the empty object all three are undefined |
| `Report.HistogramLabels` | src/components/Report.js:48 | the six labels are the midpoints 10i + 5 of the ten-minute buckets of [0, 60) |
| `Report.HistogramValues` | src/components/Report.js:18-52 | the histogram data is the dict's values in order; on the empty object `Object.values` throws |
| `Report.ReportView` | src/components/Report.js:15-66 | the report renders exactly when the minute has a record, and then charts the first matching snapshot |
| `Report.ReportViewThrowsOnMissingMinute` | src/components/Report.js:17-52 | for any result list without a record for the minute, the pie data is all undefined, but the render throws |
| `Report.ReportViewGuarded` | src/components/Report.js:52 | with the dict read guarded, the report never throws, agrees with the as-written render when that succeeds, and otherwise draws blank charts |
| `TripView.TrailColour` | src/components/Trip.js:108 | the trail is `[255,153,51]` iff `board == 1`, and `[23,184,190]` otherwise |
| `TripView.TrailColours` | src/components/Trip.js:103-108 | one colour per trip, in order: `[255,153,51]` exactly for the trips with `board == 1`, `[23,184,190]` for every other trip |
| `TripView.Header` | src/components/Trip.js:160-165 | the header fails exactly when the minute has no record; otherwise it shows the first match's figures, with in-service = driving + idle |
| `TripView.RenderTrip` | src/components/Trip.js:77-81 | a frame renders exactly when the minute has a record; its marker layers are the inclusive filter of the vehicle and passenger markers; its heading is the clock label of the time; each trail is `[255,153,51]` iff its trip has `board == 1`, and `[23,184,190]` otherwise |
| `TripView.RenderedHeading` | src/components/Trip.js:156-158 | when the minute has a record the frame renders, and for `t >= 0` its heading reads back as the rounded time modulo one day |

## Left out

- src/App.js is not part of this model except its constants 360 and 1439. It fetches four JSON files with axios, merges them into the state and sets the `loaded` flag. It also has a dead `requestTime` effect and the slider handler. This is I/O and UI glue.
- `requestAnimationFrame` / `cancelAnimationFrame` scheduling and the `useState`/`useEffect` lifecycle are not modelled, nor the cleanup that cancels a stale frame id. Only the pure tick is modelled, because the rest is frame-loop plumbing.
- All deck.gl, Mapbox, lighting and icon configuration is left out, as are the Chart.js options and registration. These are presentation over libraries that are not shown.
- Floating-point accumulation of repeated 0.05 steps is not modelled: time is an exact real.
- `Number(v.time)` string coercion is not modelled: a snapshot's `time` is an integer.
- `Label.ClockLabel` does not model `String` producing exponent notation, which only happens for magnitudes of 1e21 and above. The clock never gets near that.
- The order in which JavaScript enumerates object keys is not modelled. The bucket list is taken to be already in that order.

## Findings

| source | as written | input that shows it | evidently intended | confidence | as-written member | corrected member |
|---|---|---|---|---|---|---|
| src/components/Report.js:52 | `Object.values(CURRENT_WAITING_TIME)` reads the dict of the `{}` fallback, which is `undefined`, so the call throws and the panel fails | any time whose minute has no record in the result list, e.g. an empty list | the empty-object fallback at line 12 means a missing minute should draw blank charts, not throw | medium, not executed | `Report.ReportViewThrowsOnMissingMinute` | `Report.ReportViewGuarded` |

=== FILE: clock.dfy ===
/** The animation clock: the pure updater handed to `setTime` on every frame. */
module Clock {

  /** The trip view's `animationSpeed`. */
  const AnimationSpeed: int := 5

  /** The per-frame increment `0.01 * animationSpeed`, as an exact real. */
  const Step: real := 0.01 * AnimationSpeed as real

  /** The dashboard's clock bounds, in minutes since midnight. */
  const AppMinTime: real := 360.0
  const AppMaxTime: real := 1439.0

  /** One frame. The wrap test looks at the value BEFORE the increment, so a value
      equal to `maxTime` still advances, and only a value already past it resets. */
  function Tick(time: real, minTime: real, maxTime: real): (r: real)
    ensures time > maxTime ==> r == minTime
    ensures time <= maxTime ==> r > time && r - time == 0.05
  {
    if time > maxTime then minTime else time + Step
  }

  /** The clock value after `n` frames starting from `time`. */
  function Ticks(n: nat, time: real, minTime: real, maxTime: real): real
  {
    if n == 0 then time else Tick(Ticks(n - 1, time, minTime, maxTime), minTime, maxTime)
  }

  /** The clock never leaves `[minTime, maxTime + 0.05]` once inside it. */
  lemma TickStaysInRange(time: real, minTime: real, maxTime: real)
    requires minTime <= time <= maxTime + Step
    ensures minTime <= Tick(time, minTime, maxTime) <= maxTime + Step
  {
  }

  /** The same, for any number of frames. */
  lemma {:induction false} TicksStayInRange(n: nat, time: real, minTime: real, maxTime: real)
    requires minTime <= time <= maxTime + Step
    ensures minTime <= Ticks(n, time, minTime, maxTime) <= maxTime + Step
  {
    if n > 0 {
      TicksStayInRange(n - 1, time, minTime, maxTime);
      TickStaysInRange(Ticks(n - 1, time, minTime, maxTime), minTime, maxTime);
    }
  }

  /** Running `a` frames after `b` frames is running `a + b` frames. */
  lemma {:induction false} TicksCompose(a: nat, b: nat, time: real, minTime: real, maxTime: real)
    ensures Ticks(a + b, time, minTime, maxTime)
         == Ticks(a, Ticks(b, time, minTime, maxTime), minTime, maxTime)
  {
    if a > 0 {
      TicksCompose(a - 1, b, time, minTime, maxTime);
      assert a + b - 1 == (a - 1) + b;
    }
  }

  /** Until the first wrap the clock climbs linearly from `minTime`. */
  lemma {:induction false} TicksFromMin(k: nat, minTime: real, maxTime: real)
    requires k > 0 ==> minTime + Step * (k - 1) as real <= maxTime
    ensures Ticks(k, minTime, minTime, maxTime) == minTime + Step * k as real
  {
    if k > 0 {
      if k > 1 {
        assert minTime + Step * (k - 2) as real <= minTime + Step * (k - 1) as real;
      }
      TicksFromMin(k - 1, minTime, maxTime);
    }
  }

  /** If the `k`-th frame is the first to pass `maxTime`, the next one resets to
      `minTime` exactly, and from then on the clock repeats with period `k + 1`. */
  lemma ClockIsPeriodic(k: nat, n: nat, minTime: real, maxTime: real)
    requires k > 0
    requires minTime + Step * (k - 1) as real <= maxTime < minTime + Step * k as real
    ensures Ticks(k + 1, minTime, minTime, maxTime) == minTime
    ensures Ticks(n + (k + 1), minTime, minTime, maxTime) == Ticks(n, minTime, minTime, maxTime)
  {
    TicksFromMin(k, minTime, maxTime);
    TicksCompose(n, k + 1, minTime, minTime, maxTime);
  }

  /** With the dashboard's bounds, 360 climbs to exactly 1439 after 21580 frames, passes
      it on the next, and is back at 360 one frame later. */
  lemma AppClockCycle(n: nat)
    ensures Ticks(21580, AppMinTime, AppMinTime, AppMaxTime) == AppMaxTime
    ensures Ticks(21581, AppMinTime, AppMinTime, AppMaxTime) == AppMaxTime + Step
    ensures Ticks(21582, AppMinTime, AppMinTime, AppMaxTime) == AppMinTime
    ensures Ticks(n + 21582, AppMinTime, AppMinTime, AppMaxTime)
         == Ticks(n, AppMinTime, AppMinTime, AppMaxTime)
  {
    TicksFromMin(21580, AppMinTime, AppMaxTime);
    TicksFromMin(21581, AppMinTime, AppMaxTime);
    ClockIsPeriodic(21581, n, AppMinTime, AppMaxTime);
  }

  /** At the dashboard's bounds 1439 is not reset but advanced; 1439.05 is reset to 360. */
  lemma WrapScenario()
    ensures Tick(1439.0, AppMinTime, AppMaxTime) == 1439.05
    ensures Tick(1439.05, AppMinTime, AppMaxTime) == 360.0
  {
  }
}

=== FILE: label.dfy ===
/** The `TIME : HH : MM` heading of the trip view. */
module Label {
  import opened Wrappers

  /** `Math.round`: the nearest integer, ties going toward +infinity. */
  function JsRound(x: real): (r: int)
    ensures x - 0.5 < r as real <= x + 0.5
  {
    (x + 0.5).Floor
  }

  /** `parseInt(n / d)` for an integer `n` and a positive `d`: the quotient truncated
      toward zero. */
  function TruncDiv(n: int, d: int): (q: int)
    requires d > 0
    ensures n >= 0 ==> q == n / d
    ensures n < 0 ==> q <= 0 && d * (-q) <= -n < d * (-q + 1)
  {
    if n >= 0 then n / d else -((-n) / d)
  }

  /** JavaScript's `%` on integers: the remainder takes the sign of the dividend. */
  function TruncRem(n: int, d: int): (m: int)
    requires d > 0
    ensures n == d * TruncDiv(n, d) + m
    ensures n >= 0 ==> 0 <= m < d && m == n % d
    ensures n < 0 ==> -d < m <= 0
  {
    n - d * TruncDiv(n, d)
  }

  /** The hour shown: `parseInt(Math.round(time) / 60) % 24`. It lies strictly between
      -24 and 24, and is the hour of the day once the rounded time is non-negative. */
  function Hour(time: real): (h: int)
    ensures -24 < h < 24
    ensures JsRound(time) >= 0 ==> 0 <= h && h == (JsRound(time) / 60) % 24
  {
    TruncRem(TruncDiv(JsRound(time), 60), 24)
  }

  /** The minute shown: `Math.round(time) % 60`. It lies strictly between -60 and 60,
      and is the minute of the hour once the rounded time is non-negative. */
  function MinuteOfHour(time: real): (m: int)
    ensures -60 < m < 60
    ensures JsRound(time) >= 0 ==> 0 <= m && m == JsRound(time) % 60
  {
    TruncRem(JsRound(time), 60)
  }

  /** The character of a decimal digit. */
  function DigitChar(d: int): char
    requires 0 <= d < 10
  {
    "0123456789"[d]
  }

  /** The decimal digits of a natural number, most significant first, with no leading
      zero: only the number 0 begins with '0'. */
  function Digits(n: nat): (s: string)
    ensures |s| >= 1
    ensures s[0] == '0' <==> n == 0
    ensures |s| == 1 <==> n < 10
  {
    if n < 10 then [DigitChar(n)] else Digits(n / 10) + [DigitChar(n % 10)]
  }

  /** `String(n)` for an integer `n`: the digits of its magnitude, after a '-' when it
      is negative. */
  function DecimalString(n: int): (s: string)
    ensures |s| >= 1
    ensures n >= 0 ==> ParseDigits(s) == Some(n)
    ensures n < 0 ==> |s| >= 2 && s[0] == '-' && ParseDigits(s[1..]) == Some(-n)
    ensures n >= 0 ==> (s[0] == '0' <==> n == 0)
    ensures n < 0 ==> s[1] != '0'
  {
    if n < 0 then
      DigitsRoundTrip(-n);
      assert ("-" + Digits(-n))[1..] == Digits(-n);
      "-" + Digits(-n)
    else
      DigitsRoundTrip(n);
      Digits(n)
  }

  /** The value of a decimal digit character, if it is one. */
  function DigitValue(c: char): Option<nat>
  {
    if '0' <= c <= '9' then Some((c as int - '0' as int) as nat) else None
  }

  /** Reads a non-empty run of decimal digits. */
  function ParseDigits(s: string): Option<nat>
  {
    if |s| == 0 then None
    else
      var last := DigitValue(s[|s| - 1]);
      if last.None? then None
      else if |s| == 1 then last
      else match ParseDigits(s[..|s| - 1])
        case None => None
        case Some(v) => Some(10 * v + last.value)
  }

  /** Reading back the digits of a number gives the number. */
  lemma {:induction false} DigitsRoundTrip(n: nat)
    ensures ParseDigits(Digits(n)) == Some(n)
  {
    if n >= 10 {
      DigitsRoundTrip(n / 10);
      var s := Digits(n);
      assert s[..|s| - 1] == Digits(n / 10);
    }
  }

  /** The padding in the heading: a string of length two is kept, any other gets a
      leading '0'. */
  function Pad2(s: string): (r: string)
    ensures |s| == 2 ==> r == s
    ensures |s| != 2 ==> |r| == |s| + 1 && r[0] == '0' && r[1..] == s
  {
    if |s| == 2 then s else "0" + s
  }

  /** A two-digit field: for a value in [0, 100) it is exactly two decimal digits,
      begins with '0' exactly when the value is below 10, and reads back as the value. */
  lemma PaddedField(v: int)
    requires 0 <= v < 100
    ensures Pad2(DecimalString(v)) == [DigitChar(v / 10), DigitChar(v % 10)]
    ensures |Pad2(DecimalString(v))| == 2
    ensures Pad2(DecimalString(v))[0] == '0' <==> v < 10
    ensures ParseDigits(Pad2(DecimalString(v))) == Some(v)
  {
    if v >= 10 {
      assert Digits(v / 10) == [DigitChar(v / 10)];
    }
    assert "0123456789"[0] == '0';
  }

  /** The heading's text `TIME : hh : mm`. It always starts with `TIME : `; once the
      rounded time is non-negative it is 14 characters whose two fields read back as the
      hour and the minute. */
  function ClockLabel(time: real): (s: string)
    ensures |s| >= 14 && s[..7] == "TIME : "
    ensures JsRound(time) >= 0 ==>
              && |s| == 14
              && s[9..12] == " : "
              && ParseDigits(s[7..9]) == Some(Hour(time))
              && ParseDigits(s[12..14]) == Some(MinuteOfHour(time))
  {
    var hs := Pad2(DecimalString(Hour(time)));
    var ms := Pad2(DecimalString(MinuteOfHour(time)));
    HeadingLayout(hs, ms);
    FieldsArePadded(time);
    "TIME : " + hs + " : " + ms
  }

  /** Once the rounded time is non-negative, both fields of the heading are two digits
      that read back as the hour and the minute. */
  lemma FieldsArePadded(time: real)
    ensures JsRound(time) >= 0 ==>
              && |Pad2(DecimalString(Hour(time)))| == 2
              && |Pad2(DecimalString(MinuteOfHour(time)))| == 2
              && ParseDigits(Pad2(DecimalString(Hour(time)))) == Some(Hour(time))
              && ParseDigits(Pad2(DecimalString(MinuteOfHour(time)))) == Some(MinuteOfHour(time))
  {
    if JsRound(time) >= 0 {
      PaddedField(Hour(time));
      PaddedField(MinuteOfHour(time));
    }
  }

  /** Where the pieces of a heading sit. */
  lemma HeadingLayout(hs: string, ms: string)
    requires |hs| >= 2 && |ms| >= 2
    ensures var s := "TIME : " + hs + " : " + ms;
            && |s| >= 14 && s[..7] == "TIME : "
            && (|hs| == 2 && |ms| == 2 ==>
                  |s| == 14 && s[7..9] == hs && s[9..12] == " : " && s[12..14] == ms)
  {
    var s := "TIME : " + hs + " : " + ms;
    assert s[..7] == "TIME : ";
    if |hs| == 2 && |ms| == 2 {
      assert s[7..9] == hs;
      assert s[9..12] == " : ";
      assert s[12..14] == ms;
    }
  }

  /** For a non-negative clock, the hour is `floor(round(t) / 60) mod 24` and the minute
      is `round(t) mod 60`. */
  lemma HourAndMinute(time: real)
    requires time >= 0.0
    ensures Hour(time) == (JsRound(time) / 60) % 24 && 0 <= Hour(time) < 24
    ensures MinuteOfHour(time) == JsRound(time) % 60 && 0 <= MinuteOfHour(time) < 60
  {
  }

  /** Reads a heading of the shape `TIME : hh : mm` back into minutes since midnight. */
  function ParseClockLabel(s: string): Option<int>
  {
    if |s| != 14 || s[..7] != "TIME : " || s[9..12] != " : " then None
    else match (ParseDigits(s[7..9]), ParseDigits(s[12..14]))
      case (Some(h), Some(m)) => Some(60 * h + m)
      case _ => None
  }

  /** Splitting an integer in quotient and remainder is unique. */
  lemma DivModUnique(a: int, d: int, q: int, m: int)
    requires d > 0 && 0 <= m < d && a == d * q + m
    ensures a / d == q && a % d == m
  {
    var q0, m0 := a / d, a % d;
    assert d * (q - q0) == m0 - m;
    if q > q0 {
      MulAtLeast(d, q - q0);
    } else if q < q0 {
      MulAtLeast(d, q0 - q);
    }
  }

  /** A positive multiple of a positive number is at least that number. */
  lemma MulAtLeast(d: int, k: int)
    requires d > 0 && k >= 1
    ensures d * k >= d
  {
  }

  /** For a non-negative clock, the heading shows two two-digit fields and reads back
      as the rounded time modulo one day. */
  lemma ClockLabelRoundTrip(time: real)
    requires time >= 0.0
    ensures |ClockLabel(time)| == 14
    ensures ParseClockLabel(ClockLabel(time)) == Some(JsRound(time) % 1440)
  {
    var s := ClockLabel(time);
    var h, m := Hour(time), MinuteOfHour(time);
    assert JsRound(time) >= 0;
    ReadHeading(s, h, m);
    HourAndMinute(time);
    MinuteOfDay(JsRound(time));
  }

  /** A heading whose fields read back as `h` and `m` parses as minute `60 h + m`. */
  lemma ReadHeading(s: string, h: int, m: int)
    requires |s| == 14 && s[..7] == "TIME : " && s[9..12] == " : "
    requires ParseDigits(s[7..9]) == Some(h) && ParseDigits(s[12..14]) == Some(m)
    ensures ParseClockLabel(s) == Some(60 * h + m)
  {
  }

  /** An hour of the day and a minute of the hour recombine into the minute of the day. */
  lemma MinuteOfDay(n: int)
    requires n >= 0
    ensures 60 * ((n / 60) % 24) + n % 60 == n % 1440
  {
    var q, h, m := n / 60, (n / 60) % 24, n % 60;
    assert n == 60 * q + m;
    assert q == 24 * (q / 24) + h;
    assert n == 1440 * (q / 24) + (60 * h + m);
    DivModUnique(n, 1440, q / 24, 60 * h + m);
  }

  /** Negative values are not guarded: a minute of -1 renders as "-1" (already two
      characters), and an hour of -10 as "0-10". */
  lemma NegativeFieldsRenderUnpadded()
    ensures Pad2(DecimalString(-1)) == "-1"
    ensures Pad2(DecimalString(-10)) == "0-10"
  {
  }
}

=== FILE: report.dfy ===
/** The report panel: the vehicle-status pie and the waiting-time histogram, both drawn
    from the snapshot of the current minute. */
module Report {
  import opened Wrappers
  import opened Snapshots

  /** A field read from the report's record: a number, or `undefined` when the record
      is the empty object. */
  datatype Reading = Undefined | Count(n: int)

  /** The pie's data vector: dispatched, occupied and idle vehicles, in that order. */
  function PieData(rec: ReportRecord): (r: seq<Reading>)
    ensures |r| == 3
    ensures rec.Found? ==> r == [Count(rec.snapshot.dispatchedVehicles),
                                 Count(rec.snapshot.occupiedVehicles),
                                 Count(rec.snapshot.emptyVehicles)]
    ensures rec.EmptyObject? ==> forall i :: 0 <= i < 3 ==> r[i] == Undefined
  {
    match rec
    case Found(s) => [Count(s.dispatchedVehicles), Count(s.occupiedVehicles), Count(s.emptyVehicles)]
    case EmptyObject => [Undefined, Undefined, Undefined]
  }

  /** The histogram's x labels: the midpoints of the six ten-minute waiting-time
      buckets covering [0, 60). */
  function HistogramLabels(): (r: seq<int>)
    ensures |r| == 6
    ensures forall i :: 0 <= i < |r| ==> 10 * i < r[i] < 10 * (i + 1) && r[i] == 10 * i + 5
  {
    [5, 15, 25, 35, 45, 55]
  }

  /** The shares of a bucket list, in the list's order. */
  function Shares(buckets: seq<Bucket>): (r: seq<real>)
    ensures |r| == |buckets|
    ensures forall i :: 0 <= i < |r| ==> r[i] == buckets[i].share
  {
    if |buckets| == 0 then [] else [buckets[0].share] + Shares(buckets[1..])
  }

  /** `Object.values(CURRENT_RESULT.current_waiting_time_dict)`: the dict's values in
      enumeration order; on the empty object the dict is `undefined` and the call throws. */
  function HistogramValues(rec: ReportRecord): (r: Result<seq<real>, JsError>)
    ensures r.Failure? <==> rec.EmptyObject?
    ensures r.Success? ==> |r.value| == |rec.snapshot.waitingTimes|
    ensures r.Success? ==>
              forall i :: 0 <= i < |r.value| ==> r.value[i] == rec.snapshot.waitingTimes[i].share
  {
    match rec
    case Found(s) => Success(Shares(s.waitingTimes))
    case EmptyObject => Failure(TypeError("Cannot convert undefined or null to object"))
  }

  /** What the two charts are given. */
  datatype Charts = Charts(pie: seq<Reading>, labels: seq<int>, values: seq<real>)

  /** The charts drawn from snapshot `s`. */
  predicate ChartsOf(c: Charts, s: Snapshot)
  {
    && c.pie == [Count(s.dispatchedVehicles), Count(s.occupiedVehicles), Count(s.emptyVehicles)]
    && c.labels == [5, 15, 25, 35, 45, 55]
    && |c.values| == |s.waitingTimes|
    && forall k :: 0 <= k < |c.values| ==> c.values[k] == s.waitingTimes[k].share
  }

  /** The report's render as written: the pie survives a missing minute, but the
      histogram's `Object.values` call throws, so the whole panel does. */
  function ReportView(data: seq<Snapshot>, time: real): (r: Result<Charts, JsError>)
    ensures r.Failure? <==> forall j :: 0 <= j < |data| ==> data[j].time != time.Floor
    ensures r.Success? ==>
              exists i :: IsFirstMatch(data, i, time.Floor) && ChartsOf(r.value, data[i])
  {
    var rec := ReportResult(data, time);
    match HistogramValues(rec)
    case Failure(e) => Failure(e)
    case Success(values) => Success(Charts(PieData(rec), HistogramLabels(), values))
  }

  /** A minute without a record crashes the report despite the `{}` fallback: the pie
      data is all undefined, yet the render throws. */
  lemma ReportViewThrowsOnMissingMinute(data: seq<Snapshot>, time: real)
    requires forall j :: 0 <= j < |data| ==> data[j].time != time.Floor
    ensures ReportView(data, time).Failure?
    ensures PieData(ReportResult(data, time)) == [Undefined, Undefined, Undefined]
  {
  }

  /** The report's render with the dict read guarded as the fallback evidently intends
      (`Object.values(dict || {})`): a missing minute draws an all-undefined pie and an
      empty histogram instead of throwing. */
  function ReportViewGuarded(data: seq<Snapshot>, time: real): (r: Charts)
    ensures r.labels == HistogramLabels()
    ensures ReportView(data, time).Success? ==> r == ReportView(data, time).value
    ensures ReportView(data, time).Failure? ==>
              r.pie == [Undefined, Undefined, Undefined] && r.values == []
  {
    var rec := ReportResult(data, time);
    var values := match HistogramValues(rec)
      case Failure(_) => []
      case Success(v) => v;
    Charts(PieData(rec), HistogramLabels(), values)
  }
}

=== FILE: snapshots.dfy ===
/** The per-minute result records and the two `currResult` lookups over them. */
module Snapshots {
  import opened Wrappers

  /** One bucket of `current_waiting_time_dict`: a waiting-time bucket and its share. */
  datatype Bucket = Bucket(key: string, share: real)

  /** One element of the result list: the state of the simulation at one minute.
      `waitingTimes` lists the dict's entries in JavaScript's enumeration order. */
  datatype Snapshot = Snapshot(
    time: int,
    dispatchedVehicles: int,
    occupiedVehicles: int,
    emptyVehicles: int,
    drivingVehicles: int,
    waitingPassengers: int,
    averageWaitingTime: real,
    failedPassengersCum: int,
    waitingTimes: seq<Bucket>)

  /** Position `i` holds the first record of `data` whose minute is `minute`. */
  predicate IsFirstMatch(data: seq<Snapshot>, i: int, minute: int)
  {
    && 0 <= i < |data|
    && data[i].time == minute
    && forall j :: 0 <= j < i ==> data[j].time != minute
  }

  /** `Array.prototype.find` with the predicate `v.time === minute`, as an index. */
  function FirstMatch(data: seq<Snapshot>, minute: int): (r: Option<nat>)
    ensures r.Some? ==> IsFirstMatch(data, r.value, minute)
    ensures r.None? ==> forall j :: 0 <= j < |data| ==> data[j].time != minute
  {
    if |data| == 0 then None
    else if data[0].time == minute then Some(0)
    else match FirstMatch(data[1..], minute)
      case None => None
      case Some(k) => Some(k + 1)
  }

  /** The trip view's `currResult`: the first record of the current minute, or
      `undefined` (None) when the minute has no record. */
  function CurrResult(data: seq<Snapshot>, time: real): (r: Option<Snapshot>)
    ensures r.None? <==> forall j :: 0 <= j < |data| ==> data[j].time != time.Floor
    ensures r.Some? ==>
              exists i :: IsFirstMatch(data, i, time.Floor) && data[i] == r.value
  {
    match FirstMatch(data, time.Floor)
    case None => None
    case Some(i) => Some(data[i])
  }

  /** The report's `result || {}`: either the snapshot found, or the empty object. */
  datatype ReportRecord = Found(snapshot: Snapshot) | EmptyObject

  /** The report's `currResult`: never undefined; falls back to the empty object. */
  function ReportResult(data: seq<Snapshot>, time: real): (r: ReportRecord)
    ensures r.EmptyObject? <==> forall j :: 0 <= j < |data| ==> data[j].time != time.Floor
    ensures r.Found? ==>
              exists i :: IsFirstMatch(data, i, time.Floor) && data[i] == r.snapshot
  {
    match CurrResult(data, time)
    case None => EmptyObject
    case Some(s) => Found(s)
  }

  /** The two lookups agree whenever a record exists; they differ only in what a
      miss yields. */
  lemma ReportAgreesWithTrip(data: seq<Snapshot>, time: real)
    ensures CurrResult(data, time).Some? <==> ReportResult(data, time).Found?
    ensures CurrResult(data, time).Some? ==>
              ReportResult(data, time).snapshot == CurrResult(data, time).value
  {
  }

  /** Every record in the list carries a different minute. */
  predicate MinutesDistinct(data: seq<Snapshot>)
  {
    forall i, j :: 0 <= i < j < |data| ==> data[i].time != data[j].time
  }

  /** When every minute has at most one record, the lookup returns that record. */
  lemma LookupFindsTheRecord(data: seq<Snapshot>, i: int, time: real)
    requires MinutesDistinct(data)
    requires 0 <= i < |data| && data[i].time == time.Floor
    ensures CurrResult(data, time) == Some(data[i])
  {
  }

  /** The lookup depends on the time only through its minute. */
  lemma LookupConstantWithinMinute(data: seq<Snapshot>, t1: real, t2: real)
    requires t1.Floor == t2.Floor
    ensures CurrResult(data, t1) == CurrResult(data, t2)
    ensures ReportResult(data, t1) == ReportResult(data, t2)
  {
  }

  /** Records for minutes 360 and 361: 360.9 finds the 360 record, 359.99 and 362 find
      nothing. */
  lemma SnapshotScenario(a: Snapshot, b: Snapshot)
    requires a.time == 360 && b.time == 361
    ensures CurrResult([a, b], 360.9) == Some(a)
    ensures ReportResult([a, b], 360.9) == Found(a)
    ensures CurrResult([a, b], 359.99) == None
    ensures ReportResult([a, b], 362.0) == EmptyObject
  {
  }
}

=== FILE: timeline.dfy ===
/** The interval filter `currData` of the trip view: which vehicle and passenger
    markers are visible at a simulated time. */
module Timeline {

  /** A map position `[lng, lat]`. */
  datatype Location = Location(lng: real, lat: real)

  /** A marker record `{timestamp: [start, end], location}`. */
  datatype TimedPoint = TimedPoint(start: real, end: real, location: Location)

  /** The test in the filter: both bounds are inclusive. */
  predicate Active(p: TimedPoint, time: real)
  {
    p.start <= time && time <= p.end
  }

  /** The locations of the active records, in input order. */
  function Select(data: seq<TimedPoint>, time: real): (r: seq<Location>)
    ensures |r| <= |data|
    ensures forall l :: l in r ==>
              exists i :: 0 <= i < |data| && Active(data[i], time) && data[i].location == l
    ensures forall i :: 0 <= i < |data| && Active(data[i], time) ==> data[i].location in r
  {
    if |data| == 0 then []
    else
      var last := data[|data| - 1];
      Select(data[..|data| - 1], time) + (if Active(last, time) then [last.location] else [])
  }

  /** The positions of the active records, as an independent reference for `Select`. */
  function ActiveIndices(data: seq<TimedPoint>, time: real): (idx: seq<nat>)
    ensures forall k :: 0 <= k < |idx| ==> idx[k] < |data| && Active(data[idx[k]], time)
    ensures forall k, m :: 0 <= k < m < |idx| ==> idx[k] < idx[m]
    ensures forall i :: 0 <= i < |data| && Active(data[i], time) ==> i in idx
  {
    if |data| == 0 then []
    else
      var n := |data| - 1;
      ActiveIndices(data[..n], time) + (if Active(data[n], time) then [n] else [])
  }

  /** `currData` is exactly the comprehension over the active positions, in increasing
      order: the k-th selected location is the location of the k-th active record. */
  lemma {:induction false} SelectInInputOrder(data: seq<TimedPoint>, time: real)
    ensures |Select(data, time)| == |ActiveIndices(data, time)|
    ensures forall k :: 0 <= k < |ActiveIndices(data, time)| ==>
              Select(data, time)[k] == data[ActiveIndices(data, time)[k]].location
  {
    if |data| != 0 {
      var n := |data| - 1;
      var prefix := data[..n];
      SelectInInputOrder(prefix, time);
      var idx := ActiveIndices(prefix, time);
      forall k | 0 <= k < |idx|
        ensures prefix[idx[k]] == data[idx[k]]
      {
      }
    }
  }

  /** Filtering distributes over concatenation of marker lists. */
  lemma {:induction false} SelectAppend(a: seq<TimedPoint>, b: seq<TimedPoint>, time: real)
    ensures Select(a + b, time) == Select(a, time) + Select(b, time)
    decreases |b|
  {
    if |b| == 0 {
      assert a + b == a;
    } else {
      var n := |b| - 1;
      assert (a + b)[..|a + b| - 1] == a + b[..n];
      SelectAppend(a, b[..n], time);
    }
  }

  /** The forEach/push loop of `currData`. */
  method CurrData(data: seq<TimedPoint>, time: real) returns (arr: seq<Location>)
    ensures arr == Select(data, time)
  {
    arr := [];
    var i := 0;
    while i < |data|
      invariant 0 <= i <= |data|
      invariant arr == Select(data[..i], time)
    {
      var v := data[i];
      if v.start <= time && time <= v.end {
        arr := arr + [v.location];
      }
      assert data[..i + 1][..i] == data[..i];
      i := i + 1;
    }
    assert data[..|data|] == data;
  }

  /** A record whose interval touches the time at either end is selected; one whose
      interval lies wholly before or after it is not. */
  lemma BoundsAreInclusive(p: TimedPoint, time: real)
    ensures p.start == time && time <= p.end ==> Select([p], time) == [p.location]
    ensures p.start <= time && time == p.end ==> Select([p], time) == [p.location]
    ensures time < p.start || time > p.end ==> Select([p], time) == []
  {
  }

  /** With no records, or none active, nothing is shown. */
  lemma NoMatchSelectsNothing(data: seq<TimedPoint>, time: real)
    requires forall i :: 0 <= i < |data| ==> !Active(data[i], time)
    ensures Select(data, time) == []
  {
  }

  /** A marker live over [360, 400] is shown at 390 and not at 450. */
  lemma MarkerScenario()
    ensures Select([TimedPoint(360.0, 400.0, Location(0.0, 0.0))], 390.0) == [Location(0.0, 0.0)]
    ensures Select([TimedPoint(360.0, 400.0, Location(0.0, 0.0))], 450.0) == []
  {
  }
}

=== FILE: trip_view.dfy ===
/** The trip view's per-frame render: the marker layers, the trail colours, the clock
    heading and the figures read from the current snapshot. */
module TripView {
  import opened Wrappers
  import opened Timeline
  import opened Snapshots
  import opened Label

  /** A vehicle trip `{trip, timestamp, board}`: a path with one time per vertex. */
  datatype TripRecord = TripRecord(path: seq<Location>, timestamps: seq<real>, board: int)

  /** An RGB colour triple. */
  datatype Rgb = Rgb(red: int, green: int, blue: int)

  /** The trail colour of a trip: orange while a passenger is on board (`board === 1`),
      teal otherwise. */
  function TrailColour(trip: TripRecord): (c: Rgb)
    ensures c == Rgb(255, 153, 51) <==> trip.board == 1
    ensures c != Rgb(255, 153, 51) ==> c == Rgb(23, 184, 190)
  {
    if trip.board == 1 then Rgb(255, 153, 51) else Rgb(23, 184, 190)
  }

  /** The six figures under the heading. */
  datatype HeaderFigures = HeaderFigures(
    inService: int,
    driving: int,
    idle: int,
    waitingPassengers: int,
    averageWaitingTime: real,
    failedRequestsCum: int)

  /** The figures of snapshot `s`; the in-service total is driving plus idle. */
  predicate FiguresOf(f: HeaderFigures, s: Snapshot)
  {
    f == HeaderFigures(s.drivingVehicles + s.emptyVehicles, s.drivingVehicles, s.emptyVehicles,
                       s.waitingPassengers, s.averageWaitingTime, s.failedPassengersCum)
  }

  /** The header reads the snapshot's fields with no guard: when the minute has no
      record, `currResult` is `undefined` and the first read throws. */
  function Header(data: seq<Snapshot>, time: real): (r: Result<HeaderFigures, JsError>)
    ensures r.Failure? <==> forall j :: 0 <= j < |data| ==> data[j].time != time.Floor
    ensures r.Success? ==> exists i :: IsFirstMatch(data, i, time.Floor) && FiguresOf(r.value, data[i])
  {
    match CurrResult(data, time)
    case None => Failure(TypeError("Cannot read properties of undefined"))
    case Some(s) =>
      Success(HeaderFigures(s.drivingVehicles + s.emptyVehicles, s.drivingVehicles,
                            s.emptyVehicles, s.waitingPassengers, s.averageWaitingTime,
                            s.failedPassengersCum))
  }

  /** The four lists the view is given. */
  datatype Dataset = Dataset(
    trips: seq<TripRecord>,
    vehicleMarkers: seq<TimedPoint>,
    passengerMarkers: seq<TimedPoint>,
    results: seq<Snapshot>)

  /** Everything one frame draws that the model covers. */
  datatype Frame = Frame(
    trailColours: seq<Rgb>,
    vehicles: seq<Location>,
    passengers: seq<Location>,
    heading: string,
    figures: HeaderFigures)

  /** The colours of the trails, one per trip in order. */
  function TrailColours(trips: seq<TripRecord>): (r: seq<Rgb>)
    ensures |r| == |trips|
    ensures forall i :: 0 <= i < |r| ==> (r[i] == Rgb(255, 153, 51) <==> trips[i].board == 1)
    ensures forall i :: 0 <= i < |r| ==> (trips[i].board != 1 ==> r[i] == Rgb(23, 184, 190))
  {
    if |trips| == 0 then [] else [TrailColour(trips[0])] + TrailColours(trips[1..])
  }

  /** One render of the trip view at `time`. */
  function RenderTrip(ds: Dataset, time: real): (r: Result<Frame, JsError>)
    ensures r.Failure? <==> forall j :: 0 <= j < |ds.results| ==> ds.results[j].time != time.Floor
    ensures r.Success? ==>
              && r.value.vehicles == Select(ds.vehicleMarkers, time)
              && r.value.passengers == Select(ds.passengerMarkers, time)
              && r.value.heading == ClockLabel(time)
              && |r.value.trailColours| == |ds.trips|
              && (forall i :: 0 <= i < |ds.trips| ==>
                    (r.value.trailColours[i] == Rgb(255, 153, 51) <==> ds.trips[i].board == 1))
              && (forall i :: 0 <= i < |ds.trips| ==>
                    (ds.trips[i].board != 1 ==> r.value.trailColours[i] == Rgb(23, 184, 190)))
              && exists i :: IsFirstMatch(ds.results, i, time.Floor) && FiguresOf(r.value.figures, ds.results[i])
  {
    match Header(ds.results, time)
    case Failure(e) => Failure(e)
    case Success(f) =>
      Success(Frame(TrailColours(ds.trips), Select(ds.vehicleMarkers, time),
                    Select(ds.passengerMarkers, time), ClockLabel(time), f))
  }

  /** A frame whose minute has a record renders, and shows the clock as `TIME : hh : mm`, reading back as the
      rounded time modulo one day. */
  lemma RenderedHeading(ds: Dataset, time: real, i: int)
    requires time >= 0.0
    requires 0 <= i < |ds.results| && ds.results[i].time == time.Floor
    ensures RenderTrip(ds, time).Success?
    ensures ParseClockLabel(RenderTrip(ds, time).value.heading) == Some(JsRound(time) % 1440)
  {
    ClockLabelRoundTrip(time);
  }
}

=== FILE: wrappers.dfy ===
/** Failure-carrying values shared by the dashboard modules. */
module Wrappers {

  /** A value that may be missing: JavaScript's `undefined` result of `Array.prototype.find`. */
  datatype Option<+T> = None | Some(value: T)

  /** A computation that either yields a value or throws. */
  datatype Result<+R, +E> = Success(value: R) | Failure(error: E)

  /** The one kind of exception the rendering code can raise: a property read or an
      `Object.values` call on `undefined`. */
  datatype JsError = TypeError(reason: string)
}
